=== FILE: README.md ===
# ICDC data pipeline front end, modelled in Dafny

The repository is a command-line front end for loading tabular data files into a graph
store. Its algorithmic core is small: a deterministic node identifier built from three
chained name-based (version 5) UUIDs, a few string helpers, and the driver that resolves
the user, password and data directory and then discovers the `*.txt` files to validate or
load. This project models those pieces as pure Dafny functions and methods and proves what
they guarantee.

- `common.dfy` (module `Common`): bytes, `Option`, prefix/suffix predicates.
- `utf8.dfy` (module `Utf8`): UTF-8 encoding of Unicode scalar values, the encoding Python
  applies to a UUID name before hashing, with a strict decoder as its inverse.
- `uuid.dfy` (module `Uuid`): `uuid5` as section 4.3 of RFC 4122 defines it: SHA-1 over the
  name space's 16 octets and the UTF-8 name, truncated to 16 octets, version set to 5
  (section 4.1.3) and variant set to `10` (section 4.1.1). Also the canonical 8-4-4-4-12
  lower-case rendering of section 3, and a strict parser for it.
- `utils.py` helpers (module `Utils`): `get_uuid_for_node`, `removeTrailingSlash`,
  `is_parent_pointer`, `check_schema_files`, and the action-name and password-variable
  constants.
- `icdc-pipeline.py` driver (module `Pipeline`): `process_arguments` as a pure function
  returning either the resolved triple or an exit with code 1, the `-M` default, the
  action verb, the `*.txt` discovery, the log lines of a validate/load run, and `main`'s
  dispatch.

Inputs that the program reads from the outside world are parameters:

- SHA-1 is any total function from byte strings to 20-byte digests (`Uuid.Sha1`).
- The configured domain (`ICDC_DOMAIN`) is an argument of `GetUuidForNode`.
- `\w` is a predicate `isWord` on characters.
- `os.path.isfile` and `os.path.isdir` are predicates on paths.
- `os.environ` is a map.
- `getpass` is the string the user types.
- The directory listing glob performs is a function from a directory to its entry names.

Behaviour worth knowing that the model keeps as written:

- An empty `dir` argument is falsy in Python, so `process_arguments` skips the directory
  check. The glob pattern then becomes `/*.txt`, and the run lists the root directory
  (`GlobPrefixShape`).
- A bare `-M` with no value stores `None`, because the option has `nargs='?'` and no `const`.
  Only an omitted `-M` gives 10.
- An `ICDC_PASSWORD` that is set but empty ends the process with code 1. It does not fall
  through to the prompt.
- Before matching, glob reduces a directory argument with trailing slashes to one `/`
  separator (`os.path.split`, then `os.path.join`). It skips entries whose names start
  with `.`. It matches `*.txt` case-sensitively, as on POSIX.

## Model

| member | source | states |
|---|---|---|
| Uuid.Uuid5 | utils.py:35-39 | each link of the chain is version 5 with the RFC 4122 variant, and keeps every other bit of the first 16 octets of SHA-1 over the name space octets followed by the UTF-8 name |
| Uuid.Uuid5Congruence | utils.py:35-39 | a version-5 UUID depends on the hash only through the digest of its own message |
| Uuid.Uuid5Collision | utils.py:35-39 | two names give the same UUID exactly when their digests agree on the 122 bits a UUID keeps |
| Uuid.NameMessageInjective | utils.py:37-39 | within one name space, distinct names are distinct messages to SHA-1 (the UTF-8 encoding is injective) |
| Uuid.NameMessageSeparatesNamespaces | utils.py:35-39 | messages under distinct name spaces never coincide |
| Uuid.Hex | utils.py:41 | the hex rendering spells each octet as its high then low nibble, in lower case |
| Uuid.Format | utils.py:41 | `str(uuid)` is 36 characters with `-` exactly at 8, 13, 18, 23 and lower-case hex elsewhere, spelling the 32 digits of the UUID in order |
| Uuid.ParseFormat | utils.py:41 | reading the rendered string back with the reference parser `Parse` gives the UUID, so no information is lost |
| Uuid.FormatParse | utils.py:41 | a string the reference parser `Parse` reads as a UUID is that UUID's rendering, so the rendering is injective and canonical |
| Uuid.FormatVersionDigit | utils.py:41 | a version-5 UUID shows `5` at position 14 |
| Uuid.FormatVariantDigit | utils.py:41 | an RFC 4122 variant UUID shows one of `8`, `9`, `a`, `b` at position 19 |
| Utf8.Encode | utils.py:35-39 | the UTF-8 encoding of a name takes one to four bytes per character; its meaning is carried by DecodeFirstEncodeChar, DecodeEncode and EncodeInjective |
| Utf8.DecodeFirstEncodeChar | utils.py:35-39 | the decoder reads back the one character the encoder wrote, with its width, whatever bytes follow |
| Utf8.DecodeEncode | utils.py:35-39 | decoding the UTF-8 encoding of a name gives back the name |
| Utf8.EncodeInjective | utils.py:35-39 | distinct names have distinct UTF-8 encodings |
| Utf8.EncodeAscii | utils.py:35-39 | an ASCII name encodes to its own code points, one byte each |
| Utils.GetUuidForNode | utils.py:26-41 | the identifier is a canonical UUID string with version digit `5` and variant digit in `89ab` that parses to `uuid5(uuid5(uuid5(NAMESPACE_URL, domain), node_type), signature)` |
| Utils.DomainNamespace | utils.py:35 | the domain name space is version 5 of the RFC 4122 variant and keeps the other bits of SHA-1 over `NAMESPACE_URL` followed by the UTF-8 domain |
| Utils.TypeNamespace | utils.py:37 | the node-type name space is version 5 of the RFC 4122 variant and keeps the other bits of SHA-1 over the domain name space followed by the UTF-8 node type |
| Utils.IdentifierDependsOnlyOnChainDigests | utils.py:26-41 | the identifier is determined by the hash's values on the three chain messages, so it is a deterministic function of (domain, node type, signature) |
| Utils.SignatureCollision | utils.py:37-39 | distinct signatures give distinct SHA-1 messages, and two identifiers of one node type are equal exactly when the digests agree on the kept bits |
| Utils.DomainsHashDistinctMessages | utils.py:35 | distinct domains feed distinct messages to the first link |
| Utils.ActionNamesDistinct | utils.py:102-105 | the four sub-command names are pairwise distinct |
| Utils.StripSlashRun | utils.py:46 | for a `u` ending in `/`, the only input line 46 receives, `re.sub('/+$', '', u)` leaves a prefix of `u` that does not end in `/`, and everything it removed is `/` |
| Utils.RemoveTrailingSlash | utils.py:44-48 | the result never ends in `/`; it is the input unchanged when the input does not end in `/`; otherwise it is a strictly shorter prefix followed in the input only by `/` |
| Utils.RemoveTrailingSlashIsMaximal | utils.py:44-48 | every prefix of the input that leaves only `/` behind extends the result, so the whole trailing run is removed |
| Utils.RemoveTrailingSlashIdempotent | utils.py:44-48 | applying it twice is the same as applying it once |
| Utils.SplitStep | utils.py:50-51 | how matching `\w+\.\w+` on a prefix one character longer follows from the prefix |
| Utils.IsParentPointer | utils.py:50-51 | the scan accepts exactly the names of the form word-run, `.`, word-run (a full match) |
| Utils.ParentPointerHasOneDot | utils.py:50-51 | when `.` is not a word character, an accepted name has exactly one `.` |
| Utils.ParentPointerExamples | utils.py:50-51 | with ASCII `\w`, `case.case_id` matches and `a.b.c`, `.a`, `a.`, `ab` do not |
| Utils.CheckSchemaFiles | utils.py:57-66 | false for a missing or empty list; otherwise stops at the first path that is not a file and reports it; true exactly when every path is a file |
| Pipeline.MaxViolations | icdc-pipeline.py:20-26 | the value argparse stores for the `-M` flag a validate or load command carries: an omitted `-M` gives 10 for both; a bare `-M` gives no value; `-M n` gives n (nothing in the code reads it) |
| Pipeline.ActionName | icdc-pipeline.py:13-26 | each sub-command has its own name: `ls`, `status`, `validate`, `load`; it stands alone, since `Main` dispatches on the parsed command itself |
| Pipeline.ProcessArguments | icdc-pipeline.py:30-53 | a present, non-empty directory that is not a directory exits with code 1; otherwise the password comes from `-p`, else `ICDC_PASSWORD`, else the prompt, and an empty one from the variable or the prompt exits with code 1; on success the user is `-u`, the directory is `dir` (none for `ls`/`status`) and the password is non-empty |
| Pipeline.DirectoryCheckedFirst | icdc-pipeline.py:31-35 | a bad directory exits with code 1 whatever the flag, the environment and the prompt would give |
| Pipeline.FlagShadowsEnvAndPrompt | icdc-pipeline.py:37-38 | with a non-empty `-p`, the result does not depend on the environment or the prompt |
| Pipeline.EnvShadowsPrompt | icdc-pipeline.py:39-51 | with `ICDC_PASSWORD` set, even to the empty string, the result does not depend on the prompt |
| Pipeline.PasswordComesFromOneSource | icdc-pipeline.py:37-51 | a resolved password is the value of the first source that exists among flag, variable and prompt |
| Pipeline.GlobHead | icdc-pipeline.py:74 | the directory glob lists is the argument without trailing slashes, or the argument plus `/` when it is slashes only or empty |
| Pipeline.Join | icdc-pipeline.py:74 | a joined path ends with the entry name; an absolute name replaces the head, and a relative name is the join prefix followed by the name |
| Pipeline.JoinPrefix | icdc-pipeline.py:74 | the join prefix is the head itself when it is empty or ends in `/`, and the head plus one `/` otherwise |
| Pipeline.JoinInjective | icdc-pipeline.py:74 | distinct entry names join to distinct paths |
| Pipeline.MatchesTxtExamples | icdc-pipeline.py:74 | `*.txt` selects visible names ending in `.txt`, case-sensitively: `a.txt` yes; `.txt`, `.hidden.txt`, `a.TXT`, `a.txt.bak`, `txt` no |
| Pipeline.Discover | icdc-pipeline.py:74 | glob yields no more paths than the directory has entries, each ending in `.txt`; membership is carried by DiscoverSound and DiscoverComplete, multiplicity by DiscoverCount and DiscoverDistinct |
| Pipeline.DiscoverCount | icdc-pipeline.py:74-78 | glob yields exactly as many paths as there are listed entries matching `*.txt`, so three matching files and one other give three logged files |
| Pipeline.DiscoverDistinct | icdc-pipeline.py:74-78 | when the listed entry names are distinct, no path is yielded twice, so each matching file is logged once |
| Pipeline.DiscoverSound | icdc-pipeline.py:74 | every discovered path is a listed entry matching `*.txt`, joined to the directory |
| Pipeline.DiscoverComplete | icdc-pipeline.py:74 | every listed entry matching `*.txt` is discovered |
| Pipeline.DiscoverEmpty | icdc-pipeline.py:74-80 | discovery finds nothing exactly when no listed entry matches `*.txt` |
| Pipeline.UnmatchedEntriesUntouched | icdc-pipeline.py:74 | an entry that does not match `*.txt` never appears among the discovered paths |
| Pipeline.GlobPrefixShape | icdc-pipeline.py:74 | paths start with the directory reduced to one trailing `/`, or with the slashes-only directory plus `/` (so an empty directory argument lists `/`) |
| Pipeline.DiscoveredPathsAreDirectTxtChildren | icdc-pipeline.py:74 | every discovered path ends in `.txt` and is the prefix followed by one listed entry name without `/`, so discovery is not recursive |
| Pipeline.ActionLabel | icdc-pipeline.py:71-72 | the verb is `Loading` exactly for load and `Validating` exactly for validate |
| Pipeline.RunLog | icdc-pipeline.py:73-80 | a run logs the "data from" line, then one line per discovered file in order, or a single "No files to load." line |
| Pipeline.Main | icdc-pipeline.py:56-80 | the process exits, always with code 1, exactly when argument resolution fails; otherwise `ls` lists jobs, `status` shows the given job, and validate and load always run, discovering the files of their directory and logging them |
| Pipeline.BadDirectoryListsNothing | icdc-pipeline.py:59-74 | with a bad directory the run exits with 1 whatever the directory listings hold, so no discovery happens |
| Pipeline.EmptyDirectoryRunsTrivially | icdc-pipeline.py:74-80 | an empty data directory is not an error: the run finds no files and logs "No files to load." |

## Left out

- SHA-1 itself is a parameter. Collision resistance is a probabilistic property and is not
  proved. So the intended property that distinct signatures, and distinct domains, give
  distinct identifiers is stated only up to a SHA-1 collision:
  `Utils.SignatureCollision` and `Utils.DomainsHashDistinctMessages`.
- No golden identifier value is pinned, since SHA-1 is not computed.
- `\w` is an injected predicate, because Python's Unicode word-character tables are not
  modelled. `ParentPointerExamples` uses ASCII letters, digits and `_`.
- Logging setup (`get_logger`, utils.py:15-24) and the log levels are left out. The
  validate/load log lines are kept as `RunLog`.
- Loading the configuration file at import time, and its `sys.exit`, are left out
  (utils.py:69-84). The domain is passed in instead.
- `get_host` (utils.py:53-55) is a thin wrapper over `urllib.parse.urlparse` and is not
  modelled.
- Most utils.py constants are not modelled (utils.py:86-101). No code shown uses them.
- argparse parsing is left out. `Args` is the already-parsed command line, and `-u` is
  always present.
- The printed tables of the stubbed `ls` and `status` branches are left out
  (icdc-pipeline.py:63-70). `Main` records only which branch ran.
- The blanket `except Exception` handler (icdc-pipeline.py:83-84) is left out. With the
  inputs injected, nothing in the modelled path raises.
- Utils.StripSlashRun: stated for strings ending in `/` only. Python's `$` also matches
  just before a final newline, so `re.sub('/+$', '', u)` would remove the slashes of
  `"a/\n"`; `removeTrailingSlash` never passes it such a string, since it calls `re.sub`
  only when the string ends in `/`.
- Glob's handling of directory arguments containing the magic characters `*?[` is left out.
  Such a directory would be treated as a pattern.
- Python's surrogate-escape and encode errors are left out: Dafny strings hold Unicode
  scalar values, for which UTF-8 encoding cannot fail.
- Run-level aggregation (created/updated/deleted counts, a violation list bounded by `-M`,
  job state transitions, a job-tracking store) is left out. None of it exists in this
  code: validate and load only list files.

=== FILE: common.dfy ===
/** Shared vocabulary: bytes, optional values and small sequence predicates. */
module Common {

  /** An octet, as Python's `bytes` holds them. */
  type byte = x: int | 0 <= x < 256

  /** The conventional Some/None datatype, standing in for Python's `None`. */
  datatype Option<+T> = None | Some(value: T)

  predicate StartsWith<T(==)>(s: seq<T>, prefix: seq<T>)
  {
    |prefix| <= |s| && s[..|prefix|] == prefix
  }

  predicate EndsWith<T(==)>(s: seq<T>, suffix: seq<T>)
  {
    |suffix| <= |s| && s[|s| - |suffix|..] == suffix
  }

  /** Every element of `s` satisfies `p`. */
  predicate All<T>(s: seq<T>, p: T -> bool)
  {
    forall i :: 0 <= i < |s| ==> p(s[i])
  }

  /** No element of `s` occurs twice. */
  predicate Distinct<T(==)>(s: seq<T>)
  {
    forall i, j :: 0 <= i < j < |s| ==> s[i] != s[j]
  }

  /** A sequence with a first element is distinct exactly when that element is new and the rest is distinct. */
  lemma DistinctCons<T>(x: T, rest: seq<T>)
    ensures Distinct([x] + rest) <==> x !in rest && Distinct(rest)
  {
    var s := [x] + rest;
    if Distinct(s) {
      forall i, j | 0 <= i < j < |rest|
        ensures rest[i] != rest[j]
      {
        assert s[i + 1] == rest[i] && s[j + 1] == rest[j];
      }
      forall k | 0 <= k < |rest|
        ensures rest[k] != x
      {
        assert s[0] == x && s[k + 1] == rest[k];
      }
      assert Distinct(rest);
    }
    if x !in rest && Distinct(rest) {
      forall i, j | 0 <= i < j < |s|
        ensures s[i] != s[j]
      {
        assert s[j] == rest[j - 1];
        if i > 0 {
          assert s[i] == rest[i - 1];
        } else {
          assert s[j] in rest;
        }
      }
      assert Distinct(s);
    }
  }

  /** One instance of `All`. */
  lemma AllAt<T>(s: seq<T>, p: T -> bool, k: int)
    requires All(s, p) && 0 <= k < |s|
    ensures p(s[k])
  {
  }

  lemma EndsWithTransitive<T>(a: seq<T>, b: seq<T>, c: seq<T>)
    requires EndsWith(a, b) && EndsWith(b, c)
    ensures EndsWith(a, c)
  {
    assert a[|a| - |c|..] == b[|b| - |c|..];
  }

  lemma AllAppend<T>(a: seq<T>, b: seq<T>, p: T -> bool)
    ensures All(a + b, p) <==> All(a, p) && All(b, p)
  {
    if All(a, p) && All(b, p) {
      forall i | 0 <= i < |a + b|
        ensures p((a + b)[i])
      {
        if i >= |a| {
          assert (a + b)[i] == b[i - |a|];
        }
      }
    }
    if All(a + b, p) {
      forall i | 0 <= i < |a|
        ensures p(a[i])
      {
        assert (a + b)[i] == a[i];
      }
      forall i | 0 <= i < |b|
        ensures p(b[i])
      {
        assert (a + b)[|a| + i] == b[i];
      }
    }
  }
}

=== FILE: pipeline.dfy ===
/**
 * The command-line driver: resolving the user, password and data directory from the
 * parsed arguments, the environment and an interactive prompt, then dispatching on the
 * sub-command.  For validate and load the driver discovers the `*.txt` files directly
 * inside the data directory and logs one line per file.
 *
 * The file system, the environment and the terminal are inputs: `isDir` answers
 * `os.path.isdir`, `env` is `os.environ`, `typed` is what `getpass` would return, and
 * `listDir` gives the entry names of a directory.
 */
module Pipeline {
  import opened Common
  import Utils

  /** Default of `-M/--max-violations`, the same for validate and load. */
  const DefaultMaxViolations: int := 10

  /** How `-M` appeared: it takes an optional value (`nargs='?'`) and declares no `const`. */
  datatype MaxViolationsFlag = Omitted | BareFlag | Given(n: int)

  /** The value argparse stores for `-M`. */
  function MaxViolations(flag: MaxViolationsFlag): (r: Option<int>)
    ensures flag.Omitted? ==> r == Some(DefaultMaxViolations)
    ensures r.None? <==> flag.BareFlag?
    ensures flag.Given? ==> r == Some(flag.n)
  {
    match flag
    case Omitted => Some(DefaultMaxViolations)
    case BareFlag => None
    case Given(n) => Some(n)
  }

  datatype DataAction = Validate | Load

  /** The four sub-commands with the arguments each one declares. */
  datatype Command =
    | ListJobs
    | JobStatus(jobId: string)
    | Process(action: DataAction, maxViolations: MaxViolationsFlag, dir: string)

  /** The parsed command line: `-u` is required, `-p` optional. */
  datatype Args = Args(user: string, password: Option<string>, command: Command)

  /** The sub-command's name on the command line. */
  function ActionName(c: Command): (name: string)
    ensures name == Utils.ListJobsAction <==> c.ListJobs?
    ensures name == Utils.JobStatusAction <==> c.JobStatus?
    ensures name == Utils.LoadAction <==> c.Process? && c.action == Load
    ensures name == Utils.ValidateAction <==> c.Process? && c.action == Validate
  {
    Utils.ActionNamesDistinct();
    match c
    case ListJobs => Utils.ListJobsAction
    case JobStatus(_) => Utils.JobStatusAction
    case Process(Validate, _, _) => Utils.ValidateAction
    case Process(Load, _, _) => Utils.LoadAction
  }

  /** `args.dir if hasattr(args, 'dir') else None`: only validate and load take a directory. */
  function DirectoryOf(c: Command): (d: Option<string>)
    ensures d.Some? <==> c.Process?
    ensures c.Process? ==> d.value == c.dir
  {
    if c.Process? then Some(c.dir) else None
  }

  // ---------------------------------------------------------------------------
  // process_arguments
  // ---------------------------------------------------------------------------

  /** Why the process exits before doing any work. */
  datatype ExitReason = NotADirectory(path: string) | EmptyPromptedPassword | EmptyEnvPassword

  /** The outcome of `process_arguments`: the resolved triple, or `sys.exit(code)`. */
  datatype Resolution =
    | Resolved(user: string, password: string, directory: Option<string>)
    | Exit(code: int, reason: ExitReason)

  /** The directory is present, non-empty (Python-truthy) and not a directory. */
  predicate BadDirectory(c: Command, isDir: string -> bool)
  {
    c.Process? && c.dir != "" && !isDir(c.dir)
  }

  /** A `-p` value that Python treats as true: present and non-empty. */
  predicate HasPasswordFlag(args: Args)
  {
    args.password.Some? && args.password.value != ""
  }

  /**
   * `process_arguments`: checks the directory, then takes the password from `-p`, else from
   * the `ICDC_PASSWORD` environment variable when it is set, else from the prompt; an empty
   * password from the variable or the prompt ends the process with code 1.
   */
  function ProcessArguments(args: Args, isDir: string -> bool, env: map<string, string>, typed: string): (r: Resolution)
    ensures r.Exit? ==> r.code == 1
    ensures BadDirectory(args.command, isDir) ==> r == Exit(1, NotADirectory(args.command.dir))
    ensures r.Resolved? ==> r.user == args.user && r.directory == DirectoryOf(args.command) && r.password != ""
    ensures !BadDirectory(args.command, isDir) && HasPasswordFlag(args) ==> r.Resolved? && r.password == args.password.value
    ensures !BadDirectory(args.command, isDir) && !HasPasswordFlag(args) && Utils.PasswordEnv in env ==>
      if env[Utils.PasswordEnv] == "" then r == Exit(1, EmptyEnvPassword)
      else r.Resolved? && r.password == env[Utils.PasswordEnv]
    ensures !BadDirectory(args.command, isDir) && !HasPasswordFlag(args) && Utils.PasswordEnv !in env ==>
      if typed == "" then r == Exit(1, EmptyPromptedPassword)
      else r.Resolved? && r.password == typed
  {
    var directory := DirectoryOf(args.command);
    if directory.Some? && directory.value != "" && !isDir(directory.value) then
      Exit(1, NotADirectory(directory.value))
    else if HasPasswordFlag(args) then
      Resolved(args.user, args.password.value, directory)
    else if Utils.PasswordEnv !in env then
      if typed == "" then Exit(1, EmptyPromptedPassword) else Resolved(args.user, typed, directory)
    else
      var fromEnv := env[Utils.PasswordEnv];
      if fromEnv == "" then Exit(1, EmptyEnvPassword) else Resolved(args.user, fromEnv, directory)
  }

  /**
   * The directory check comes first: a bad directory ends the process whatever the
   * password flag, the environment and the prompt would have given.
   */
  lemma DirectoryCheckedFirst(args: Args, isDir: string -> bool, env1: map<string, string>, env2: map<string, string>,
                              typed1: string, typed2: string, password: Option<string>)
    requires BadDirectory(args.command, isDir)
    ensures ProcessArguments(args, isDir, env1, typed1)
         == ProcessArguments(args.(password := password), isDir, env2, typed2)
         == Exit(1, NotADirectory(args.command.dir))
  {
  }

  /** With `-p` given, neither the environment nor the prompt is consulted. */
  lemma FlagShadowsEnvAndPrompt(args: Args, isDir: string -> bool, env1: map<string, string>, env2: map<string, string>,
                                typed1: string, typed2: string)
    requires HasPasswordFlag(args)
    ensures ProcessArguments(args, isDir, env1, typed1) == ProcessArguments(args, isDir, env2, typed2)
  {
  }

  /** With `ICDC_PASSWORD` set (even to the empty string), the prompt is never consulted. */
  lemma EnvShadowsPrompt(args: Args, isDir: string -> bool, env: map<string, string>, typed1: string, typed2: string)
    requires Utils.PasswordEnv in env
    ensures ProcessArguments(args, isDir, env, typed1) == ProcessArguments(args, isDir, env, typed2)
  {
  }

  /** The password is consulted from exactly one source, the first of flag, variable, prompt that exists. */
  lemma PasswordComesFromOneSource(args: Args, isDir: string -> bool, env: map<string, string>, typed: string)
    ensures var r := ProcessArguments(args, isDir, env, typed);
      r.Resolved? ==>
        if HasPasswordFlag(args) then r.password == args.password.value
        else if Utils.PasswordEnv in env then r.password == env[Utils.PasswordEnv]
        else r.password == typed
  {
  }

  // ---------------------------------------------------------------------------
  // File discovery: glob over the pattern directory + "/" + "*.txt"
  // ---------------------------------------------------------------------------

  /** Names starting with `.` are skipped by `*` in glob. */
  predicate IsHidden(name: string)
  {
    |name| > 0 && name[0] == '.'
  }

  /** A directory entry `*.txt` matches: not hidden, ending in `.txt` (case-sensitive, as on POSIX). */
  predicate MatchesTxt(name: string)
  {
    !IsHidden(name) && EndsWith(name, ".txt")
  }

  /** A plain entry name as a directory listing yields it: non-empty and without `/`. */
  predicate IsEntryName(name: string)
  {
    name != "" && forall i :: 0 <= i < |name| ==> name[i] != '/'
  }

  /**
   * The directory glob lists for the pattern `dir` + `/` + `*.txt`: the head `os.path.split`
   * gives, with trailing slashes stripped unless the head is slashes only.
   */
  function GlobHead(dir: string): (h: string)
    ensures h != ""
    ensures Utils.AllSlashes(dir) ==> h == dir + "/"
    ensures !Utils.AllSlashes(dir) ==> h == Utils.RemoveTrailingSlash(dir) && !EndsWith(h, "/")
  {
    var head := dir + "/";
    if Utils.AllSlashes(head) then
      head
    else
      assert head[..|dir|] == dir;
      Utils.RemoveTrailingSlashIsMaximal(head, dir);
      Utils.RemoveTrailingSlashIsMaximal(dir, Utils.RemoveTrailingSlash(head));
      Utils.RemoveTrailingSlash(head)
  }

  /** `os.path.join(head, name)`: an absolute name replaces the head, otherwise one `/` separates them. */
  function Join(head: string, name: string): (p: string)
    ensures EndsWith(p, name)
    ensures StartsWith(name, "/") ==> p == name
    ensures !StartsWith(name, "/") ==> p == JoinPrefix(head) + name
  {
    if StartsWith(name, "/") then name
    else if head == "" || EndsWith(head, "/") then head + name
    else head + "/" + name
  }

  /** What `os.path.join` puts before a relative name: the head, with a `/` added unless it has one. */
  function JoinPrefix(head: string): (p: string)
    ensures p == "" || EndsWith(p, "/")
    ensures head == "" || EndsWith(head, "/") ==> p == head
    ensures head != "" && !EndsWith(head, "/") ==> p == head + "/"
  {
    if head == "" || EndsWith(head, "/") then head else head + "/"
  }

  /**
   * The paths glob yields: for each listed entry that matches `*.txt`, in listing order,
   * the entry joined to the head.
   */
  function Discover(head: string, listing: seq<string>): (files: seq<string>)
    ensures |files| <= |listing|
    ensures forall i :: 0 <= i < |files| ==> EndsWith(files[i], ".txt")
  {
    if listing == [] then []
    else
      var rest := Discover(head, listing[1..]);
      var n := listing[0];
      if MatchesTxt(n) then
        EndsWithTransitive(Join(head, n), n, ".txt");
        [Join(head, n)] + rest
      else rest
  }

  /** Which entry names `*.txt` selects: visible names ending in `.txt`, case-sensitively. */
  lemma MatchesTxtExamples()
    ensures MatchesTxt("a.txt") && MatchesTxt("case data.txt")
    ensures !MatchesTxt(".txt") && !MatchesTxt(".hidden.txt")
    ensures !MatchesTxt("a.TXT") && !MatchesTxt("a.txt.bak") && !MatchesTxt("txt")
  {
    assert "a.txt"[1..] == ".txt";
    assert "case data.txt"[9..] == ".txt";
  }

  /** Every discovered path is a matching listed entry joined to the head. */
  lemma {:induction false} DiscoverSound(head: string, listing: seq<string>, p: string)
    requires p in Discover(head, listing)
    ensures exists n :: n in listing && MatchesTxt(n) && p == Join(head, n)
  {
    var n := listing[0];
    if MatchesTxt(n) && p == Join(head, n) {
      assert n in listing;
    } else {
      DiscoverSound(head, listing[1..], p);
      var m :| m in listing[1..] && MatchesTxt(m) && p == Join(head, m);
      assert m in listing;
    }
  }

  /** Every listed entry that matches `*.txt` is discovered. */
  lemma {:induction false} DiscoverComplete(head: string, listing: seq<string>, n: string)
    requires n in listing && MatchesTxt(n)
    ensures Join(head, n) in Discover(head, listing)
  {
    if listing[0] != n {
      assert n in listing[1..];
      DiscoverComplete(head, listing[1..], n);
    }
  }

  /** Discovery finds nothing exactly when no listed entry matches `*.txt`. */
  lemma DiscoverEmpty(head: string, listing: seq<string>)
    ensures Discover(head, listing) == [] <==> forall n :: n in listing ==> !MatchesTxt(n)
  {
    if exists n :: n in listing && MatchesTxt(n) {
      var n :| n in listing && MatchesTxt(n);
      DiscoverComplete(head, listing, n);
    }
    if Discover(head, listing) != [] {
      DiscoverSound(head, listing, Discover(head, listing)[0]);
    }
  }

  lemma EntryNameIsRelative(n: string)
    requires IsEntryName(n)
    ensures !StartsWith(n, "/")
  {
    assert n[..1][0] == n[0];
  }

  /** Joining to one head keeps entry names apart. */
  lemma JoinInjective(head: string, a: string, b: string)
    requires IsEntryName(a) && IsEntryName(b)
    ensures Join(head, a) == Join(head, b) ==> a == b
  {
    var pre := JoinPrefix(head);
    EntryNameIsRelative(a);
    EntryNameIsRelative(b);
    assert a == (pre + a)[|pre|..];
    assert b == (pre + b)[|pre|..];
  }

  /** Discovery never yields a path for an entry that does not match `*.txt`. */
  lemma {:induction false} UnmatchedEntriesUntouched(head: string, listing: seq<string>, n: string)
    requires forall m :: m in listing ==> IsEntryName(m)
    requires IsEntryName(n) && !MatchesTxt(n)
    ensures Join(head, n) !in Discover(head, listing)
  {
    if listing != [] {
      assert forall m :: m in listing[1..] ==> m in listing;
      UnmatchedEntriesUntouched(head, listing[1..], n);
      JoinInjective(head, n, listing[0]);
    }
  }

  /** The positions of the listed entries that match `*.txt`. */
  function MatchPositions(listing: seq<string>): set<int>
  {
    set i | 0 <= i < |listing| && MatchesTxt(listing[i])
  }

  /** Discovery over two listings one after the other is the discoveries one after the other. */
  lemma {:induction false} DiscoverAppend(head: string, a: seq<string>, b: seq<string>)
    ensures Discover(head, a + b) == Discover(head, a) + Discover(head, b)
  {
    if a != [] {
      assert (a + b)[1..] == a[1..] + b;
      DiscoverAppend(head, a[1..], b);
    } else {
      assert a + b == b;
    }
  }

  /** Discovery yields exactly one path per matching listed entry: as many paths as matching positions. */
  lemma {:induction false} DiscoverCount(head: string, listing: seq<string>)
    ensures |Discover(head, listing)| == |MatchPositions(listing)|
    decreases |listing|
  {
    if listing == [] {
      assert MatchPositions(listing) == {};
    } else {
      var k := |listing| - 1;
      var init, last := listing[..k], listing[k];
      assert listing == init + [last];
      DiscoverAppend(head, init, [last]);
      DiscoverOne(head, last);
      DiscoverCount(head, init);
      MatchPositionsSnoc(init, last);
      assert |init| !in MatchPositions(init);
    }
  }

  /** A one-entry listing yields its path exactly when the entry matches. */
  lemma DiscoverOne(head: string, n: string)
    ensures MatchesTxt(n) ==> Discover(head, [n]) == [Join(head, n)]
    ensures !MatchesTxt(n) ==> Discover(head, [n]) == []
  {
    assert [n][1..] == [];
  }

  /** Appending an entry adds its position exactly when it matches. */
  lemma MatchPositionsSnoc(init: seq<string>, last: string)
    ensures MatchesTxt(last) ==> MatchPositions(init + [last]) == MatchPositions(init) + {|init|}
    ensures !MatchesTxt(last) ==> MatchPositions(init + [last]) == MatchPositions(init)
  {
    var listing := init + [last];
    assert forall j :: 0 <= j < |init| ==> listing[j] == init[j];
    assert listing[|init|] == last;
  }

  /** An entry name missing from the listing has no path among those discovered. */
  lemma {:induction false} AbsentEntryUntouched(head: string, listing: seq<string>, n: string)
    requires forall m :: m in listing ==> IsEntryName(m)
    requires IsEntryName(n) && n !in listing
    ensures Join(head, n) !in Discover(head, listing)
  {
    if listing != [] {
      assert forall m :: m in listing[1..] ==> m in listing;
      AbsentEntryUntouched(head, listing[1..], n);
      JoinInjective(head, n, listing[0]);
    }
  }

  /** Distinct entry names give distinct paths, so no file is yielded twice. */
  lemma {:induction false} DiscoverDistinct(head: string, listing: seq<string>)
    requires forall m :: m in listing ==> IsEntryName(m)
    requires Distinct(listing)
    ensures Distinct(Discover(head, listing))
  {
    if listing != [] {
      var tail := listing[1..];
      DistinctCons(listing[0], tail);
      assert listing == [listing[0]] + tail;
      assert forall m :: m in tail ==> m in listing;
      DiscoverDistinct(head, tail);
      if MatchesTxt(listing[0]) {
        AbsentEntryUntouched(head, tail, listing[0]);
        DistinctCons(Join(head, listing[0]), Discover(head, tail));
      }
    }
  }

  /**
   * The text glob puts before each entry name: the directory with its trailing slashes
   * reduced to one, or the slashes-only directory (the empty one included) plus one more.
   */
  lemma GlobPrefixShape(dir: string)
    ensures Utils.AllSlashes(dir) ==> JoinPrefix(GlobHead(dir)) == dir + "/"
    ensures !Utils.AllSlashes(dir) ==> JoinPrefix(GlobHead(dir)) == Utils.RemoveTrailingSlash(dir) + "/"
  {
  }

  /** Every discovered path is a matching entry name directly after the directory prefix, never deeper. */
  lemma DiscoveredPathsAreDirectTxtChildren(dir: string, listing: seq<string>, p: string)
    requires forall m :: m in listing ==> IsEntryName(m)
    requires p in Discover(GlobHead(dir), listing)
    ensures EndsWith(p, ".txt")
    ensures StartsWith(p, JoinPrefix(GlobHead(dir)))
    ensures IsEntryName(p[|JoinPrefix(GlobHead(dir))|..])
    ensures p[|JoinPrefix(GlobHead(dir))|..] in listing
  {
    var head := GlobHead(dir);
    DiscoverSound(head, listing, p);
    var n :| n in listing && MatchesTxt(n) && p == Join(head, n);
    EndsWithTransitive(p, n, ".txt");
    EntryNameIsRelative(n);
    var pre := JoinPrefix(head);
    assert p == pre + n;
    assert p[|pre|..] == n;
  }

  // ---------------------------------------------------------------------------
  // main
  // ---------------------------------------------------------------------------

  /** The verb logged for a data action. */
  function ActionLabel(a: DataAction): (verb: string)
    ensures verb == "Loading" <==> a == Load
    ensures verb == "Validating" <==> a == Validate
  {
    match a
    case Load => "Loading"
    case Validate => "Validating"
  }

  /** The log lines of a validate or load run over the discovered files. */
  function RunLog(a: DataAction, dir: string, files: seq<string>): (log: seq<string>)
    ensures |log| == 1 + (if files == [] then 1 else |files|)
    ensures log[0] == ActionLabel(a) + " data from \"" + dir + "\""
    ensures files == [] ==> log[1] == "No files to load."
    ensures forall i :: 0 <= i < |files| ==> log[i + 1] == ActionLabel(a) + " file: \"" + files[i] + "\""
  {
    var verb := ActionLabel(a);
    [verb + " data from \"" + dir + "\""]
      + if files == [] then ["No files to load."]
        else seq(|files|, i requires 0 <= i < |files| => verb + " file: \"" + files[i] + "\"")
  }

  /** What one invocation ends with. */
  datatype Outcome =
    | Exited(code: int)
    | ListedJobs
    | ShowedStatus(jobId: string)
    | Ran(action: DataAction, files: seq<string>, log: seq<string>)

  /**
   * `main` after argument parsing: resolve the arguments, then list jobs, show a status,
   * or discover and log the data files.
   */
  function Main(args: Args, isDir: string -> bool, env: map<string, string>, typed: string,
                listDir: string -> seq<string>): (o: Outcome)
    ensures ProcessArguments(args, isDir, env, typed).Exit? <==> o == Exited(1)
    ensures o.Exited? ==> o.code == 1
    ensures !ProcessArguments(args, isDir, env, typed).Exit? ==>
      && (args.command.ListJobs? ==> o == ListedJobs)
      && (args.command.JobStatus? ==> o == ShowedStatus(args.command.jobId))
      && (args.command.Process? ==> o.Ran?)
    ensures o.ListedJobs? ==> args.command.ListJobs?
    ensures o.ShowedStatus? ==> args.command == JobStatus(o.jobId)
    ensures o.Ran? ==>
      && args.command.Process?
      && o.action == args.command.action
      && o.files == Discover(GlobHead(args.command.dir), listDir(GlobHead(args.command.dir)))
      && o.log == RunLog(o.action, args.command.dir, o.files)
    ensures !o.Exited? ==> (o.Ran? <==> args.command.Process?)
  {
    var r := ProcessArguments(args, isDir, env, typed);
    if r.Exit? then Exited(r.code)
    else
      match args.command
      case ListJobs => ListedJobs
      case JobStatus(id) => ShowedStatus(id)
      case Process(a, _, dir) =>
        var head := GlobHead(r.directory.value);
        Ran(a, Discover(head, listDir(head)), RunLog(a, dir, Discover(head, listDir(head))))
  }

  /** A bad directory stops the run before any directory is listed. */
  lemma BadDirectoryListsNothing(args: Args, isDir: string -> bool, env: map<string, string>, typed: string,
                                 list1: string -> seq<string>, list2: string -> seq<string>)
    requires BadDirectory(args.command, isDir)
    ensures Main(args, isDir, env, typed, list1) == Main(args, isDir, env, typed, list2) == Exited(1)
  {
  }

  /** An empty data directory is not an error: the run logs that there is nothing to load. */
  lemma EmptyDirectoryRunsTrivially(args: Args, isDir: string -> bool, env: map<string, string>, typed: string,
                                    listDir: string -> seq<string>)
    requires args.command.Process? && listDir(GlobHead(args.command.dir)) == []
    requires ProcessArguments(args, isDir, env, typed).Resolved?
    ensures var o := Main(args, isDir, env, typed, listDir);
      o.Ran? && o.files == [] && o.log[1] == "No files to load."
  {
  }
}

=== FILE: utf8.dfy ===
/**
 * UTF-8 encoding of Unicode scalar values (section 3 of RFC 3629), the encoding
 * Python's `bytes(name, "utf-8")` applies to a name before it is hashed for a
 * version-5 UUID.  A strict decoder is the encoder's partner: it accepts exactly
 * the byte strings the encoder produces, which makes the encoding injective.
 */
module Utf8 {
  import opened Common

  /** Number of bytes UTF-8 spends on one scalar value. */
  function Width(c: char): (w: nat)
    ensures 1 <= w <= 4
  {
    var cp := c as int;
    if cp < 0x80 then 1 else if cp < 0x800 then 2 else if cp < 0x1_0000 then 3 else 4
  }

  predicate IsContinuation(b: byte)
  {
    0x80 <= b < 0xC0
  }

  function EncodeChar(c: char): (r: seq<byte>)
    ensures |r| == Width(c)
    ensures Width(c) == 1 <==> r[0] < 0x80
    ensures forall i :: 1 <= i < |r| ==> IsContinuation(r[i])
  {
    var cp := c as int;
    if cp < 0x80 then [cp]
    else if cp < 0x800 then [0xC0 + cp / 64, 0x80 + cp % 64]
    else if cp < 0x1_0000 then [0xE0 + cp / 4096, 0x80 + (cp / 64) % 64, 0x80 + cp % 64]
    else [0xF0 + cp / 0x4_0000, 0x80 + (cp / 4096) % 64, 0x80 + (cp / 64) % 64, 0x80 + cp % 64]
  }

  /** The UTF-8 encoding of a whole string: the encodings of its characters, in order. */
  function Encode(s: string): (r: seq<byte>)
    ensures |s| <= |r| <= 4 * |s|
  {
    if s == [] then [] else EncodeChar(s[0]) + Encode(s[1..])
  }

  /** Splitting `hi * 64 + lo` with `lo` a 6-bit value recovers both parts. */
  lemma SplitSixBits(x: int, hi: int, lo: int)
    requires 0 <= hi && 0 <= lo < 64 && x == hi * 64 + lo
    ensures x / 64 == hi && x % 64 == lo
  {
  }

  /** The scalar value of a two-byte sequence, refusing overlong forms. */
  function DecodeTwo(b0: int, b1: int): (r: Option<char>)
    requires 0xC0 <= b0 < 0xE0 && 0x80 <= b1 < 0xC0
    ensures r.Some? ==> EncodeChar(r.value) == [b0, b1]
  {
    var cp := (b0 - 0xC0) * 64 + (b1 - 0x80);
    if 0x80 <= cp then
      SplitSixBits(cp, b0 - 0xC0, b1 - 0x80);
      Some(cp as char)
    else None
  }

  /** The scalar value of a three-byte sequence, refusing overlong forms and surrogates. */
  function DecodeThree(b0: int, b1: int, b2: int): (r: Option<char>)
    requires 0xE0 <= b0 < 0xF0 && 0x80 <= b1 < 0xC0 && 0x80 <= b2 < 0xC0
    ensures r.Some? ==> EncodeChar(r.value) == [b0, b1, b2]
  {
    var hi := (b0 - 0xE0) * 64 + (b1 - 0x80);
    var cp := hi * 64 + (b2 - 0x80);
    if 0x800 <= cp && !(0xD800 <= cp < 0xE000) then
      SplitSixBits(cp, hi, b2 - 0x80);
      SplitSixBits(hi, b0 - 0xE0, b1 - 0x80);
      Some(cp as char)
    else None
  }

  /** The scalar value of a four-byte sequence, refusing overlong forms and values above U+10FFFF. */
  function DecodeFour(b0: int, b1: int, b2: int, b3: int): (r: Option<char>)
    requires 0xF0 <= b0 < 0xF8 && 0x80 <= b1 < 0xC0 && 0x80 <= b2 < 0xC0 && 0x80 <= b3 < 0xC0
    ensures r.Some? ==> EncodeChar(r.value) == [b0, b1, b2, b3]
  {
    var top := (b0 - 0xF0) * 64 + (b1 - 0x80);
    var hi := top * 64 + (b2 - 0x80);
    var cp := hi * 64 + (b3 - 0x80);
    if 0x1_0000 <= cp < 0x11_0000 then
      SplitSixBits(cp, hi, b3 - 0x80);
      SplitSixBits(hi, top, b2 - 0x80);
      SplitSixBits(top, b0 - 0xF0, b1 - 0x80);
      Some(cp as char)
    else None
  }

  /** Pairs a decoded character with its width. */
  function WithWidth(c: Option<char>, w: nat): Option<(char, nat)>
  {
    if c.Some? then Some((c.value, w)) else None
  }

  /**
   * Decodes the scalar value at the head of `bs` together with the number of bytes
   * it occupies; overlong forms, surrogates and values above U+10FFFF are refused.
   */
  function DecodeFirst(bs: seq<byte>): (r: Option<(char, nat)>)
    requires |bs| > 0
    ensures r.Some? ==> r.value.1 <= |bs| && EncodeChar(r.value.0) == bs[..r.value.1]
  {
    var b0: int := bs[0];
    if b0 < 0x80 then
      Some((b0 as char, 1))
    else if 0xC0 <= b0 < 0xE0 && 2 <= |bs| && IsContinuation(bs[1]) then
      assert bs[..2] == [bs[0], bs[1]];
      WithWidth(DecodeTwo(b0, bs[1]), 2)
    else if 0xE0 <= b0 < 0xF0 && 3 <= |bs| && IsContinuation(bs[1]) && IsContinuation(bs[2]) then
      assert bs[..3] == [bs[0], bs[1], bs[2]];
      WithWidth(DecodeThree(b0, bs[1], bs[2]), 3)
    else if 0xF0 <= b0 < 0xF8 && 4 <= |bs| && IsContinuation(bs[1]) && IsContinuation(bs[2])
            && IsContinuation(bs[3]) then
      assert bs[..4] == [bs[0], bs[1], bs[2], bs[3]];
      WithWidth(DecodeFour(b0, bs[1], bs[2], bs[3]), 4)
    else
      None
  }

  /** Decodes a whole byte string; `None` when it is not well-formed UTF-8. */
  function Decode(bs: seq<byte>): (r: Option<string>)
    ensures r.Some? ==> Encode(r.value) == bs
    decreases |bs|
  {
    if bs == [] then Some([])
    else match DecodeFirst(bs)
      case None => None
      case Some((c, w)) =>
        match Decode(bs[w..])
        case None => None
        case Some(rest) => Some([c] + rest)
  }

  lemma DecodeFirstTwoBytes(c: char, rest: seq<byte>)
    requires 0x80 <= c as int < 0x800
    ensures DecodeFirst(EncodeChar(c) + rest) == Some((c, 2))
  {
    var cp := c as int;
    SplitSixBits(cp, cp / 64, cp % 64);
  }

  lemma DecodeFirstThreeBytes(c: char, rest: seq<byte>)
    requires 0x800 <= c as int < 0x1_0000
    ensures DecodeFirst(EncodeChar(c) + rest) == Some((c, 3))
  {
    var cp := c as int;
    SplitSixBits(cp, cp / 64, cp % 64);
    SplitSixBits(cp / 64, cp / 4096, (cp / 64) % 64);
  }

  lemma DecodeFirstFourBytes(c: char, rest: seq<byte>)
    requires 0x1_0000 <= c as int
    ensures DecodeFirst(EncodeChar(c) + rest) == Some((c, 4))
  {
    var cp := c as int;
    SplitSixBits(cp, cp / 64, cp % 64);
    SplitSixBits(cp / 64, cp / 4096, (cp / 64) % 64);
    SplitSixBits(cp / 4096, cp / 0x4_0000, (cp / 4096) % 64);
  }

  /** The decoder reads back the character the encoder wrote, whatever follows it. */
  lemma DecodeFirstEncodeChar(c: char, rest: seq<byte>)
    ensures DecodeFirst(EncodeChar(c) + rest) == Some((c, Width(c)))
  {
    var cp := c as int;
    if cp < 0x80 {
    } else if cp < 0x800 {
      DecodeFirstTwoBytes(c, rest);
    } else if cp < 0x1_0000 {
      DecodeFirstThreeBytes(c, rest);
    } else {
      DecodeFirstFourBytes(c, rest);
    }
  }

  /** Decoding undoes encoding. */
  lemma {:induction false} DecodeEncode(s: string)
    ensures Decode(Encode(s)) == Some(s)
  {
    if s != [] {
      var head := EncodeChar(s[0]);
      var tail := Encode(s[1..]);
      DecodeFirstEncodeChar(s[0], tail);
      assert (head + tail)[|head|..] == tail;
      DecodeEncode(s[1..]);
      assert [s[0]] + s[1..] == s;
    }
  }

  /** Distinct strings have distinct encodings. */
  lemma EncodeInjective(a: string, b: string)
    ensures Encode(a) == Encode(b) ==> a == b
  {
    DecodeEncode(a);
    DecodeEncode(b);
  }

  /** An ASCII string encodes to its own code points, one byte each. */
  lemma {:induction false} EncodeAscii(s: string)
    requires forall i :: 0 <= i < |s| ==> s[i] as int < 0x80
    ensures |Encode(s)| == |s|
    ensures forall i :: 0 <= i < |s| ==> Encode(s)[i] == s[i] as int
  {
    if s != [] {
      EncodeAscii(s[1..]);
    }
  }
}

=== FILE: utils.dfy ===
/**
 * The helpers of the pipeline's utility module: the deterministic node identifier,
 * trailing-slash removal, the parent-pointer field test, the schema-file check and
 * the shared constants.
 */
module Utils {
  import opened Common
  import Utf8
  import U = Uuid

  /** Names of the four sub-commands. */
  const ListJobsAction: string := "ls"
  const JobStatusAction: string := "status"
  const LoadAction: string := "load"
  const ValidateAction: string := "validate"

  /** The environment variable the password may come from. */
  const PasswordEnv: string := "ICDC_PASSWORD"

  /** The sub-command names are pairwise distinct, so dispatching on them is unambiguous. */
  lemma ActionNamesDistinct()
    ensures ListJobsAction != JobStatusAction && ListJobsAction != LoadAction
    ensures ListJobsAction != ValidateAction && JobStatusAction != LoadAction
    ensures JobStatusAction != ValidateAction && LoadAction != ValidateAction
  {
    assert ListJobsAction[0] != JobStatusAction[0];
    assert LoadAction[0] != ValidateAction[0];
  }

  // ---------------------------------------------------------------------------
  // Node identifiers
  // ---------------------------------------------------------------------------

  /** The deployment's root name space: `uuid5(NAMESPACE_URL, domain)`. */
  function DomainNamespace(sha1: U.Sha1, domain: string): (ns: U.Uuid)
    ensures U.Version(ns) == 5 && U.IsRfc4122Variant(ns)
    ensures forall i :: 0 <= i < 16 && i != 6 && i != 8 ==> ns[i] == sha1(U.NameMessage(U.NamespaceUrl, domain))[i]
  {
    U.Uuid5(sha1, U.NamespaceUrl, domain)
  }

  /** The name space of one node type within the deployment. */
  function TypeNamespace(sha1: U.Sha1, domain: string, nodeType: string): (ns: U.Uuid)
    ensures U.Version(ns) == 5 && U.IsRfc4122Variant(ns)
    ensures forall i :: 0 <= i < 16 && i != 6 && i != 8 ==>
      ns[i] == sha1(U.NameMessage(DomainNamespace(sha1, domain), nodeType))[i]
  {
    U.Uuid5(sha1, DomainNamespace(sha1, domain), nodeType)
  }

  /**
   * `get_uuid_for_node`, with the configured domain passed in: the canonical string of
   * `uuid5(uuid5(uuid5(NAMESPACE_URL, domain), node_type), signature)`.
   */
  function GetUuidForNode(sha1: U.Sha1, domain: string, nodeType: string, signature: string): (s: string)
    ensures U.IsCanonical(s)
    ensures s[14] == '5' && s[19] in "89ab"
    ensures U.Parse(s) == Some(U.Uuid5(sha1, U.Uuid5(sha1, U.Uuid5(sha1, U.NamespaceUrl, domain), nodeType), signature))
  {
    var u := U.Uuid5(sha1, TypeNamespace(sha1, domain, nodeType), signature);
    U.ParseFormat(u);
    U.FormatVersionDigit(u);
    U.FormatVariantDigit(u);
    U.Format(u)
  }

  /**
   * The identifier is determined by the hash's values on the three messages of the
   * chain and nothing else: no hidden state takes part in the derivation.
   */
  lemma IdentifierDependsOnlyOnChainDigests(h1: U.Sha1, h2: U.Sha1, domain: string, nodeType: string, signature: string)
    requires h1(U.NameMessage(U.NamespaceUrl, domain)) == h2(U.NameMessage(U.NamespaceUrl, domain))
    requires h1(U.NameMessage(DomainNamespace(h1, domain), nodeType))
          == h2(U.NameMessage(DomainNamespace(h1, domain), nodeType))
    requires h1(U.NameMessage(TypeNamespace(h1, domain, nodeType), signature))
          == h2(U.NameMessage(TypeNamespace(h1, domain, nodeType), signature))
    ensures GetUuidForNode(h1, domain, nodeType, signature) == GetUuidForNode(h2, domain, nodeType, signature)
  {
    U.Uuid5Congruence(h1, h2, U.NamespaceUrl, domain);
    U.Uuid5Congruence(h1, h2, DomainNamespace(h1, domain), nodeType);
    U.Uuid5Congruence(h1, h2, TypeNamespace(h1, domain, nodeType), signature);
  }

  /**
   * Two signatures of one node type get the same identifier exactly when SHA-1 maps their
   * (distinct) messages to digests that agree on the 122 bits a UUID keeps: identifiers
   * collide only through a truncated SHA-1 collision.
   */
  lemma SignatureCollision(sha1: U.Sha1, domain: string, nodeType: string, s1: string, s2: string)
    ensures s1 != s2 ==>
      U.NameMessage(TypeNamespace(sha1, domain, nodeType), s1) != U.NameMessage(TypeNamespace(sha1, domain, nodeType), s2)
    ensures GetUuidForNode(sha1, domain, nodeType, s1) == GetUuidForNode(sha1, domain, nodeType, s2)
        <==> U.KeptBitsAgree(sha1(U.NameMessage(TypeNamespace(sha1, domain, nodeType), s1)),
                             sha1(U.NameMessage(TypeNamespace(sha1, domain, nodeType), s2)))
  {
    var ns := TypeNamespace(sha1, domain, nodeType);
    U.NameMessageInjective(ns, s1, s2);
    U.Uuid5Collision(sha1, ns, s1, s2);
    var u1, u2 := U.Uuid5(sha1, ns, s1), U.Uuid5(sha1, ns, s2);
    if GetUuidForNode(sha1, domain, nodeType, s1) == GetUuidForNode(sha1, domain, nodeType, s2) {
      assert U.Parse(GetUuidForNode(sha1, domain, nodeType, s1)) == Some(u1);
      assert U.Parse(GetUuidForNode(sha1, domain, nodeType, s2)) == Some(u2);
    }
  }

  /** Distinct domains feed distinct messages to the first link of the chain. */
  lemma DomainsHashDistinctMessages(d1: string, d2: string)
    ensures d1 != d2 ==> U.NameMessage(U.NamespaceUrl, d1) != U.NameMessage(U.NamespaceUrl, d2)
  {
    U.NameMessageInjective(U.NamespaceUrl, d1, d2);
  }

  // ---------------------------------------------------------------------------
  // removeTrailingSlash
  // ---------------------------------------------------------------------------

  /** Every character of `s` is `/`. */
  predicate AllSlashes(s: string)
  {
    All(s, c => c == '/')
  }

  /**
   * Drops the run of `/` the string ends with, all of it. For a `u` ending in `/`, the only
   * input `removeTrailingSlash` gives it, this is `re.sub('/+$', '', u)`.
   */
  function StripSlashRun(u: string): (r: string)
    ensures StartsWith(u, r) && AllSlashes(u[|r|..])
    ensures !EndsWith(r, "/")
    decreases |u|
  {
    if |u| > 0 && u[|u| - 1] == '/' then
      var r := StripSlashRun(u[..|u| - 1]);
      assert u[|r|..] == u[..|u| - 1][|r|..] + [u[|u| - 1]];
      r
    else u
  }

  /** `removeTrailingSlash`: the string without its trailing `/` characters. */
  function RemoveTrailingSlash(uri: string): (r: string)
    ensures !EndsWith(r, "/")
    ensures !EndsWith(uri, "/") ==> r == uri
    ensures EndsWith(uri, "/") ==> |r| < |uri|
    ensures StartsWith(uri, r) && AllSlashes(uri[|r|..])
  {
    if EndsWith(uri, "/") then StripSlashRun(uri) else uri
  }

  /**
   * The result is the shortest prefix followed only by slashes: any prefix of `uri`
   * that leaves only slashes behind extends it.
   */
  lemma RemoveTrailingSlashIsMaximal(uri: string, p: string)
    requires StartsWith(uri, p) && AllSlashes(uri[|p|..])
    ensures StartsWith(p, RemoveTrailingSlash(uri))
  {
    var r := RemoveTrailingSlash(uri);
    assert p[..|r|] == uri[..|r|];
  }

  /** Removing trailing slashes twice removes nothing more. */
  lemma RemoveTrailingSlashIdempotent(uri: string)
    ensures RemoveTrailingSlash(RemoveTrailingSlash(uri)) == RemoveTrailingSlash(uri)
  {
  }

  // ---------------------------------------------------------------------------
  // is_parent_pointer: re.fullmatch(r'\w+\.\w+', field)
  // ---------------------------------------------------------------------------

  /** `f` is a run of word characters, a `.` at `i`, and another run of word characters. */
  predicate SplitsAt(isWord: char -> bool, f: string, i: int)
  {
    0 < i < |f| - 1 && f[i] == '.' && All(f[..i], isWord) && All(f[i + 1..], isWord)
  }

  /** The language of `\w+\.\w+`, for a given meaning of `\w`. */
  predicate WordDotWord(isWord: char -> bool, f: string)
  {
    exists i :: 0 < i < |f| - 1 && SplitsAt(isWord, f, i)
  }

  /** A split of the longer prefix is a split of the shorter one, or the dot just before the last character. */
  lemma SplitStepBack(isWord: char -> bool, f: string, n: int, i: int)
    requires 0 <= n < |f| && 0 < i < n && SplitsAt(isWord, f[..n + 1], i)
    ensures isWord(f[n])
    ensures i < n - 1 ==> SplitsAt(isWord, f[..n], i)
    ensures i == n - 1 ==> n >= 2 && f[n - 1] == '.' && All(f[..n - 1], isWord)
  {
    var p, q := f[..n + 1], f[..n];
    assert p[i + 1..] == q[i + 1..] + [f[n]];
    AllAppend(q[i + 1..], [f[n]], isWord);
    assert p[..i] == q[..i];
    if i == n - 1 {
      assert f[..n - 1] == p[..i];
    }
  }

  /** A split of the shorter prefix stays a split when a word character is appended. */
  lemma SplitExtend(isWord: char -> bool, f: string, n: int, i: int)
    requires 0 <= n < |f| && isWord(f[n]) && 0 < i < n - 1 && SplitsAt(isWord, f[..n], i)
    ensures SplitsAt(isWord, f[..n + 1], i)
  {
    var p, q := f[..n + 1], f[..n];
    assert p[i + 1..] == q[i + 1..] + [f[n]];
    AllAppend(q[i + 1..], [f[n]], isWord);
    AllAppend([], [f[n]], isWord);
    assert p[..i] == q[..i];
  }

  /** A dot just before an appended word character, after a word run, is a split. */
  lemma SplitAtLastDot(isWord: char -> bool, f: string, n: int)
    requires 2 <= n < |f| && isWord(f[n]) && f[n - 1] == '.' && All(f[..n - 1], isWord)
    ensures SplitsAt(isWord, f[..n + 1], n - 1)
  {
    var p := f[..n + 1];
    AllAppend([], [f[n]], isWord);
    assert p[..n - 1] == f[..n - 1];
    assert p[n..] == [f[n]];
  }

  /** A split of the shorter prefix, or a dot just before the last character, gives a split of the longer one. */
  lemma SplitStepForward(isWord: char -> bool, f: string, n: int)
    requires 0 <= n < |f| && isWord(f[n])
    ensures WordDotWord(isWord, f[..n]) ==> WordDotWord(isWord, f[..n + 1])
    ensures n >= 2 && f[n - 1] == '.' && All(f[..n - 1], isWord) ==> SplitsAt(isWord, f[..n + 1], n - 1)
  {
    if WordDotWord(isWord, f[..n]) {
      var i :| 0 < i < n - 1 && SplitsAt(isWord, f[..n], i);
      SplitExtend(isWord, f, n, i);
    }
    if n >= 2 && f[n - 1] == '.' && All(f[..n - 1], isWord) {
      SplitAtLastDot(isWord, f, n);
    }
  }

  /** How matching `\w+\.\w+` on `f[..n+1]` follows from the automaton states after `f[..n]`. */
  lemma SplitStep(isWord: char -> bool, f: string, n: int)
    requires 0 <= n < |f|
    ensures WordDotWord(isWord, f[..n + 1])
        <==> isWord(f[n]) && (WordDotWord(isWord, f[..n]) || (n >= 2 && f[n - 1] == '.' && All(f[..n - 1], isWord)))
  {
    if WordDotWord(isWord, f[..n + 1]) {
      var i :| 0 < i < n && SplitsAt(isWord, f[..n + 1], i);
      SplitStepBack(isWord, f, n, i);
    }
    if isWord(f[n]) {
      SplitStepForward(isWord, f, n);
    }
  }

  /**
   * `is_parent_pointer`: runs the four-state automaton of `\w+\.\w+` over the field name
   * and accepts when the whole name has been matched.
   */
  method IsParentPointer(isWord: char -> bool, f: string) returns (b: bool)
    ensures b <==> WordDotWord(isWord, f)
  {
    var inFirst, afterDot, inSecond := false, false, false;
    var n := 0;
    while n < |f|
      invariant 0 <= n <= |f|
      invariant inFirst <==> n >= 1 && All(f[..n], isWord)
      invariant afterDot <==> n >= 2 && f[n - 1] == '.' && All(f[..n - 1], isWord)
      invariant inSecond <==> WordDotWord(isWord, f[..n])
    {
      SplitStep(isWord, f, n);
      assert f[..n + 1] == f[..n] + [f[n]];
      AllAppend(f[..n], [f[n]], isWord);
      var c := f[n];
      inFirst, afterDot, inSecond := (n == 0 || inFirst) && isWord(c), inFirst && c == '.', (afterDot || inSecond) && isWord(c);
      n := n + 1;
    }
    assert f[..n] == f;
    b := inSecond;
  }

  /** With `.` outside `\w`, an accepted name has exactly one dot: the one it splits at. */
  lemma ParentPointerHasOneDot(isWord: char -> bool, f: string, i: int)
    requires !isWord('.')
    requires SplitsAt(isWord, f, i)
    ensures forall j :: 0 <= j < |f| && f[j] == '.' ==> j == i
  {
    forall j | 0 <= j < |f| && f[j] == '.'
      ensures j == i
    {
    }
  }

  /** ASCII word characters: letters, digits and `_`. */
  predicate IsAsciiWord(c: char)
  {
    'a' <= c <= 'z' || 'A' <= c <= 'Z' || '0' <= c <= '9' || c == '_'
  }

  /** With ASCII `\w`: `case.case_id` is a parent pointer; `a.b.c`, `.a`, `a.` and `ab` are not. */
  lemma ParentPointerExamples()
    ensures WordDotWord(IsAsciiWord, "case.case_id")
    ensures !WordDotWord(IsAsciiWord, "a.b.c")
    ensures !WordDotWord(IsAsciiWord, ".a")
    ensures !WordDotWord(IsAsciiWord, "a.")
    ensures !WordDotWord(IsAsciiWord, "ab")
  {
    assert SplitsAt(IsAsciiWord, "case.case_id", 4) by {
      assert "case.case_id"[..4] == "case";
      assert "case.case_id"[5..] == "case_id";
    }
    var f := "a.b.c";
    forall i | 0 < i < |f| - 1 && SplitsAt(IsAsciiWord, f, i)
      ensures false
    {
      var head, tail := f[..i], f[i + 1..];
      if i == 1 {
        assert tail == "b.c";
        AllAt(tail, IsAsciiWord, 1);
      } else {
        assert head == "a.b";
        AllAt(head, IsAsciiWord, 1);
      }
      assert false;
    }
  }

  // ---------------------------------------------------------------------------
  // check_schema_files
  // ---------------------------------------------------------------------------

  /** Which of the three ways `check_schema_files` can end was taken. */
  datatype SchemaCheck = NoSchemas | NotAFile(index: nat) | AllFiles

  /**
   * `check_schema_files`: refuses a missing or empty list, then tests the paths in order
   * and stops at the first one that is not a file.
   */
  method CheckSchemaFiles(schemas: Option<seq<string>>, isFile: string -> bool) returns (ok: bool, outcome: SchemaCheck)
    ensures ok <==> outcome.AllFiles?
    ensures outcome.NoSchemas? <==> schemas.None? || schemas.value == []
    ensures outcome.NotAFile? ==>
      && schemas.Some?
      && outcome.index < |schemas.value|
      && !isFile(schemas.value[outcome.index])
      && forall j :: 0 <= j < outcome.index ==> isFile(schemas.value[j])
    ensures ok <==> schemas.Some? && schemas.value != [] && forall i :: 0 <= i < |schemas.value| ==> isFile(schemas.value[i])
  {
    if schemas.None? || schemas.value == [] {
      return false, NoSchemas;
    }
    var paths := schemas.value;
    var i := 0;
    while i < |paths|
      invariant 0 <= i <= |paths|
      invariant forall j :: 0 <= j < i ==> isFile(paths[j])
    {
      if !isFile(paths[i]) {
        return false, NotAFile(i);
      }
      i := i + 1;
    }
    return true, AllFiles;
  }
}

=== FILE: uuid.dfy ===
/**
 * Name-based (version 5, SHA-1) UUIDs as section 4.3 of RFC 4122 defines them,
 * and their canonical 8-4-4-4-12 lower-case hexadecimal rendering (section 3),
 * in the form Python's `uuid.uuid5` and `str(UUID)` produce them.
 *
 * SHA-1 itself is not modelled: it is a parameter, any total function from byte
 * strings to 20-byte digests.
 */
module Uuid {
  import opened Common
  import Utf8

  /** A UUID is 16 octets, most significant first. */
  type Uuid = b: seq<byte> | |b| == 16 witness seq(16, _ => 0)

  /** A SHA-1 digest is 20 octets. */
  type Digest = d: seq<byte> | |d| == 20 witness seq(20, _ => 0)

  /** The hash function the derivation is parameterised by. */
  type Sha1 = seq<byte> -> Digest

  /** The name space for URLs from appendix C of RFC 4122: 6ba7b811-9dad-11d1-80b4-00c04fd430c8. */
  const NamespaceUrl: Uuid :=
    [0x6b, 0xa7, 0xb8, 0x11, 0x9d, 0xad, 0x11, 0xd1, 0x80, 0xb4, 0x00, 0xc0, 0x4f, 0xd4, 0x30, 0xc8]

  /** The version field: the high nibble of octet 6 (section 4.1.3 of RFC 4122). */
  function Version(u: Uuid): int
  {
    u[6] / 16
  }

  /** The variant field holds the bits `10` in the top of octet 8 (section 4.1.1 of RFC 4122). */
  predicate IsRfc4122Variant(u: Uuid)
  {
    u[8] / 64 == 2
  }

  /** The octets SHA-1 hashes for a name in a name space: the name space's 16 octets, then the name in UTF-8. */
  function NameMessage(ns: Uuid, name: string): seq<byte>
  {
    ns + Utf8.Encode(name)
  }

  /**
   * Two digests agree on the 122 bits a version-5 UUID keeps: every octet of the first
   * 16 except the version nibble of octet 6 and the two variant bits of octet 8.
   */
  predicate KeptBitsAgree(d1: Digest, d2: Digest)
  {
    && (forall i :: 0 <= i < 16 && i != 6 && i != 8 ==> d1[i] == d2[i])
    && d1[6] % 16 == d2[6] % 16
    && d1[8] % 64 == d2[8] % 64
  }

  /**
   * `uuid.uuid5(ns, name)`: SHA-1 over the name space and the UTF-8 name, truncated to
   * 16 octets, with the version set to 5 and the variant set to RFC 4122.
   */
  function Uuid5(sha1: Sha1, ns: Uuid, name: string): (u: Uuid)
    ensures Version(u) == 5 && IsRfc4122Variant(u)
    ensures forall i :: 0 <= i < 16 && i != 6 && i != 8 ==> u[i] == sha1(NameMessage(ns, name))[i]
    ensures u[6] % 16 == sha1(NameMessage(ns, name))[6] % 16
    ensures u[8] % 64 == sha1(NameMessage(ns, name))[8] % 64
  {
    var d := sha1(NameMessage(ns, name))[..16];
    d[6 := d[6] % 16 + 0x50][8 := d[8] % 64 + 0x80]
  }

  /** A version-5 UUID depends on the hash only through the digest of its own message. */
  lemma Uuid5Congruence(h1: Sha1, h2: Sha1, ns: Uuid, name: string)
    requires h1(NameMessage(ns, name)) == h2(NameMessage(ns, name))
    ensures Uuid5(h1, ns, name) == Uuid5(h2, ns, name)
  {
  }

  /** Two names give the same version-5 UUID exactly when their digests agree on the kept bits. */
  lemma Uuid5Collision(sha1: Sha1, ns: Uuid, a: string, b: string)
    ensures Uuid5(sha1, ns, a) == Uuid5(sha1, ns, b)
        <==> KeptBitsAgree(sha1(NameMessage(ns, a)), sha1(NameMessage(ns, b)))
  {
    var ua, ub := Uuid5(sha1, ns, a), Uuid5(sha1, ns, b);
    if KeptBitsAgree(sha1(NameMessage(ns, a)), sha1(NameMessage(ns, b))) {
      forall i | 0 <= i < 16
        ensures ua[i] == ub[i]
      {
        if i == 6 || i == 8 {
          assert ua[i] == ua[i] / 16 * 16 + ua[i] % 16;
        }
      }
    }
  }

  /** Distinct names in one name space are distinct messages to SHA-1. */
  lemma NameMessageInjective(ns: Uuid, a: string, b: string)
    ensures NameMessage(ns, a) == NameMessage(ns, b) ==> a == b
  {
    if NameMessage(ns, a) == NameMessage(ns, b) {
      assert Utf8.Encode(a) == NameMessage(ns, a)[16..];
      assert Utf8.Encode(b) == NameMessage(ns, b)[16..];
      Utf8.EncodeInjective(a, b);
    }
  }

  /** Messages under distinct name spaces differ, whatever the names. */
  lemma NameMessageSeparatesNamespaces(ns1: Uuid, ns2: Uuid, a: string, b: string)
    ensures ns1 != ns2 ==> NameMessage(ns1, a) != NameMessage(ns2, b)
  {
    if NameMessage(ns1, a) == NameMessage(ns2, b) {
      assert ns1 == NameMessage(ns1, a)[..16];
      assert ns2 == NameMessage(ns2, b)[..16];
    }
  }

  // ---------------------------------------------------------------------------
  // Canonical string form
  // ---------------------------------------------------------------------------

  const HexDigits: string := "0123456789abcdef"

  predicate IsLowerHex(c: char)
  {
    '0' <= c <= '9' || 'a' <= c <= 'f'
  }

  function HexValue(c: char): (n: nat)
    requires IsLowerHex(c)
    ensures n < 16
  {
    if '0' <= c <= '9' then c as int - '0' as int else c as int - 'a' as int + 10
  }

  /** The lower-case hexadecimal digit for a nibble. */
  function HexDigit(n: int): (c: char)
    requires 0 <= n < 16
    ensures IsLowerHex(c) && HexValue(c) == n
  {
    HexDigits[n]
  }

  lemma HexDigitOfValue(c: char)
    requires IsLowerHex(c)
    ensures HexDigit(HexValue(c)) == c
  {
  }

  /** Big-endian hexadecimal of a byte string, two lower-case digits per octet (`'%032x'` for 16 octets). */
  function Hex(bs: seq<byte>): (h: string)
    ensures |h| == 2 * |bs|
    ensures forall k :: 0 <= k < |bs| ==> h[2 * k] == HexDigit(bs[k] / 16) && h[2 * k + 1] == HexDigit(bs[k] % 16)
    ensures forall j :: 0 <= j < |h| ==> IsLowerHex(h[j])
  {
    if bs == [] then "" else [HexDigit(bs[0] / 16), HexDigit(bs[0] % 16)] + Hex(bs[1..])
  }

  /** The hyphen positions of the canonical form. */
  predicate IsHyphenPos(p: int)
  {
    p == 8 || p == 13 || p == 18 || p == 23
  }

  /** Where the `j`-th hex digit sits in the canonical form. */
  function DigitPos(j: int): (p: int)
    requires 0 <= j < 32
    ensures 0 <= p < 36 && !IsHyphenPos(p)
  {
    if j < 8 then j else if j < 12 then j + 1 else if j < 16 then j + 2 else if j < 20 then j + 3 else j + 4
  }

  /** The digit index held at a non-hyphen position; inverse of `DigitPos`. */
  function DigitIndex(p: int): (j: int)
    requires 0 <= p < 36 && !IsHyphenPos(p)
    ensures 0 <= j < 32 && DigitPos(j) == p
  {
    if p < 8 then p else if p < 13 then p - 1 else if p < 18 then p - 2 else if p < 23 then p - 3 else p - 4
  }

  /** 36 characters, hyphens exactly at 8, 13, 18 and 23, lower-case hex digits everywhere else. */
  predicate IsCanonical(s: string)
  {
    |s| == 36 && forall p :: 0 <= p < 36 ==> if IsHyphenPos(p) then s[p] == '-' else IsLowerHex(s[p])
  }

  /** The octet spelled by the two digits `2 * k` and `2 * k + 1` of a canonical string. */
  function OctetAt(s: string, k: int): byte
    requires IsCanonical(s) && 0 <= k < 16
  {
    16 * HexValue(s[DigitPos(2 * k)]) + HexValue(s[DigitPos(2 * k + 1)])
  }

  /** Reads a canonical string back into its 16 octets; `None` for anything else. */
  function Parse(s: string): (r: Option<Uuid>)
    ensures r.Some? <==> IsCanonical(s)
    ensures r.Some? ==> forall k :: 0 <= k < 16 ==> r.value[k] == OctetAt(s, k)
  {
    if IsCanonical(s) then Some(seq(16, k requires 0 <= k < 16 => OctetAt(s, k))) else None
  }

  /** 32 hex digits grouped 8-4-4-4-12 with hyphens, as `UUID.__str__` slices them. */
  function Group(h: string): string
    requires |h| == 32
  {
    h[..8] + "-" + h[8..12] + "-" + h[12..16] + "-" + h[16..20] + "-" + h[20..]
  }

  /** Grouping hex digits gives a canonical string that spells them in order. */
  lemma GroupShape(h: string)
    requires |h| == 32 && forall j :: 0 <= j < 32 ==> IsLowerHex(h[j])
    ensures IsCanonical(Group(h))
    ensures forall j :: 0 <= j < 32 ==> Group(h)[DigitPos(j)] == h[j]
  {
    var s := Group(h);
    assert |s| == 36;
    forall j | 0 <= j < 32
      ensures s[DigitPos(j)] == h[j]
    {
    }
    forall p | 0 <= p < 36
      ensures if IsHyphenPos(p) then s[p] == '-' else IsLowerHex(s[p])
    {
      if !IsHyphenPos(p) {
        assert s[p] == h[DigitIndex(p)];
      }
    }
  }

  /**
   * `str(uuid)`: 36 characters, hyphens exactly at 8, 13, 18 and 23, and the 32
   * lower-case hex digits of the UUID in order everywhere else.
   */
  function Format(u: Uuid): (s: string)
    ensures IsCanonical(s)
    ensures forall j :: 0 <= j < 32 ==> s[DigitPos(j)] == Hex(u)[j]
  {
    GroupShape(Hex(u));
    Group(Hex(u))
  }

  /** Parsing the canonical form gives back the UUID. */
  lemma ParseFormat(u: Uuid)
    ensures Parse(Format(u)) == Some(u)
  {
    var s := Format(u);
    var h := Hex(u);
    var v := Parse(s).value;
    forall k | 0 <= k < 16
      ensures v[k] == u[k]
    {
      assert s[DigitPos(2 * k)] == h[2 * k] == HexDigit(u[k] / 16);
      assert s[DigitPos(2 * k + 1)] == h[2 * k + 1] == HexDigit(u[k] % 16);
      assert v[k] == 16 * (u[k] / 16) + u[k] % 16;
    }
    assert v == u;
  }

  /** A digit of a canonical string is the digit of the octet it belongs to. */
  lemma DigitOfOctet(s: string, j: int)
    requires IsCanonical(s) && 0 <= j < 32
    ensures j % 2 == 0 ==> s[DigitPos(j)] == HexDigit(OctetAt(s, j / 2) / 16)
    ensures j % 2 == 1 ==> s[DigitPos(j)] == HexDigit(OctetAt(s, j / 2) % 16)
  {
    var k := j / 2;
    var hi, lo := HexValue(s[DigitPos(2 * k)]), HexValue(s[DigitPos(2 * k + 1)]);
    assert OctetAt(s, k) / 16 == hi && OctetAt(s, k) % 16 == lo;
    HexDigitOfValue(s[DigitPos(j)]);
  }

  /** Only the canonical form of a UUID parses to it: the rendering is the parser's one preimage. */
  lemma FormatParse(s: string, u: Uuid)
    requires Parse(s) == Some(u)
    ensures Format(u) == s
  {
    var f := Format(u);
    forall p | 0 <= p < 36
      ensures f[p] == s[p]
    {
      if !IsHyphenPos(p) {
        var j := DigitIndex(p);
        DigitOfOctet(s, j);
        assert f[p] == Hex(u)[j];
        if j % 2 == 0 {
          assert Hex(u)[2 * (j / 2)] == HexDigit(u[j / 2] / 16);
        } else {
          assert Hex(u)[2 * (j / 2) + 1] == HexDigit(u[j / 2] % 16);
        }
      }
    }
  }

  /** The canonical form shows version 5 as the digit at position 14. */
  lemma FormatVersionDigit(u: Uuid)
    ensures Version(u) == 5 ==> Format(u)[14] == '5'
  {
    assert Format(u)[DigitPos(12)] == Hex(u)[2 * 6];
  }

  /** The RFC 4122 variant shows as one of `8`, `9`, `a`, `b` at position 19. */
  lemma FormatVariantDigit(u: Uuid)
    ensures IsRfc4122Variant(u) ==> Format(u)[19] in "89ab"
  {
    assert Format(u)[DigitPos(16)] == Hex(u)[2 * 8];
    assert Hex(u)[2 * 8] == HexDigit(u[8] / 16);
  }
}
